=== FILE: README.md ===
# GridView scrolling grid and gallery paging, modelled in Dafny

This project models the discrete parts of the `GridView` widget of a Unity image gallery,
and of the gallery screen that drives it.

The `GridView` parts are:

- **Layout.** `n` items are split into `(n + k - 1) / k` line containers. Item `i` goes to
  line `i / k`, position `i % k`.
- **Offset setter.** It clamps the content position to the active bounds. When an
  unclamped request crosses the trailing edge, it calls `reachEnd`, and a latch then
  blocks further calls until the item source is assigned again.
- **Pointer capture.** This covers press, move and release (up, cancel, leave and out),
  the tap-versus-drag `canClick` flag, and the post-release animation. That animation is
  created once, then only resumed or paused.
- **Bounds.** The hard bounds come from the viewport size versus the content size. The
  "out" bounds extend them by a tenth of the viewport.

The gallery screen (`GallerryUI`) parts are:

- **Paging rule.** It decides which 1-based image indices are fetched next.
- **Placeholders.** An item is appended to the list before each download is awaited.
- **Start latch.** A one-shot latch makes the first geometry event start loading.
- **Re-publication.** The list is re-published to the grid when a download finishes.

The model is functional. The grid's scroll state is an immutable record (`Scroll.State`),
and each event handler is a pure function from the state to a `Step`. A `Step` holds the
new state and whether `reachEnd` was called.

The grid's only `reachEnd` subscriber is `LoadImages`. Its only effect on the grid is
possibly clearing `waitToLoad`. So each transition takes a `clearsWait` flag, which says
what the subscriber would do if called now. The latch allows at most one call per event,
which makes this exact.

The modules are:

- `Clamp` models Unity's `Mathf.Clamp` and .NET's `Math.Clamp`.
- `Layout` models `CreateGrid` and `AddItems`, as loops and as a recursive reference
  definition.
- `Scroll` models the state and its transitions.
- `Events` covers event dispatch and properties over whole event sequences.
- `GridView` covers the item source, `Update` and clicks.
- `Decimal` and `Gallery` cover URLs and paging.
- `Screen` composes the screen: over any run, the list is exactly the placeholders of
  images `1 .. n` in order, with `n <= maxImageCount`.

Floats are modelled as reals, and Unity's approximate vector equality as exact equality.
The animation maths is a parameter of each tick.

## Model

| member | source | states |
|---|---|---|
| Clamp.MathfClamp | Assets/UI/Scripts/GridView.cs:77-78 | Unity's clamp order: within `[min, max]` when `min <= max`, an in-range value unchanged; when `max < min` the result is `min` exactly for values below `min` and `max` otherwise |
| Clamp.MathfClampIsNearest | Assets/UI/Scripts/GridView.cs:77-78 | for an ordered range the clamped value is the point of the range nearest the request |
| Clamp.MathfClampIdempotent | Assets/UI/Scripts/GridView.cs:77-78 | clamping an already clamped value changes nothing |
| Clamp.MathClamp | Assets/Scripts/GallerryUI.cs:113 | .NET integer clamp: fails exactly when `min > max`, else the result lies in range, equals an in-range value and the nearest bound otherwise |
| Layout.CreateGrid | Assets/UI/Scripts/GridView.cs:187-204 | creates `(n + k - 1) / k` empty line containers |
| Layout.AddItems | Assets/UI/Scripts/GridView.cs:206-223 | appending item `i` to line `i / k` in source order yields exactly the grid of consecutive `k`-slices of the items, equal to the recursive reference `Chunks` |
| Layout.BuildLines | Assets/UI/Scripts/GridView.cs:180-181 | `CreateGrid` then `AddItems` yields the grid of the items |
| Layout.ChunksIsGrid | Assets/UI/Scripts/GridView.cs:187-215 | the reference chunking has `(n + k - 1) / k` lines, line `j` holding items `j*k` up to `(j+1)*k` |
| Layout.GridUnique | Assets/UI/Scripts/GridView.cs:208-215 | the layout of a source is unique: two grids of the same items and `k` are equal |
| Layout.GridLineSizes | Assets/UI/Scripts/GridView.cs:187-215 | every line holds between 1 and `k` cells, all but the last exactly `k` |
| Layout.GridCells | Assets/UI/Scripts/GridView.cs:211-215 | item `i` is cell `i % k` of line `i / k` |
| Layout.ChunksFlatten | Assets/UI/Scripts/GridView.cs:208-215 | reading the lines back in order gives the source: every item appears exactly once, in order, so the cell count is `n` |
| Scroll.SetOffset | Assets/UI/Scripts/GridView.cs:72-87 | each axis of the stored offset is Unity's clamp of the request to the active range: kept when in range, else the nearer bound when the range is ordered. For short content, where `lowBound.y > highBound.y`, a request below the minimum goes to the minimum and any other to the maximum. `reachEnd` is called exactly when the unclamped request has `x > highBound.x` or `y < lowBound.y` and the latch is open, which closes the latch; nothing else changes |
| Scroll.SetVelocity | Assets/UI/Scripts/GridView.cs:89-97 | stores the velocity and sets the offset to the moved offset clamped (Unity order, per axis) against the active bounds, so an in-bounds move is kept exactly; `reachEnd` under the latch rule; nothing else changes |
| Scroll.SetSpringBack | Assets/UI/Scripts/GridView.cs:99-107 | stores the spring-back velocity and sets the offset to the moved offset clamped (Unity order, per axis) against the active bounds; `reachEnd` under the latch rule |
| Scroll.InitialSpringBack | Assets/UI/Scripts/GridView.cs:258-278 | x component 0; an offset above the high bound is brought back to it, one below the active minimum back to the low bound, an in-range one not at all |
| Scroll.StartSpringAnimation | Assets/UI/Scripts/GridView.cs:239-246 | the animation is running afterwards and the spring-back is the initial one; the offset is the Unity clamp of `(x, y + springBack.y)` against the active bounds, `reachEnd` fires exactly when that request is past the end with the latch open; velocity, capture, bounds and geometry are untouched |
| Scroll.Release | Assets/UI/Scripts/GridView.cs:225-237 | a release of another pointer is ignored; a matching one frees the capture, sets the velocity to `(0, delta.y)` only for a nonzero delta, starts the animation; from the state `m` after the momentum step, the spring-back is `InitialSpringBack(m)`, the offset is the Unity clamp of `(x, y + springBack.y)`, `reachEnd` fires in the momentum step or exactly when the spring-back request is past the end with the latch open, and with ordered hard bounds y lands between the active minimum and the high bound |
| Scroll.Momentum | Assets/UI/Scripts/GridView.cs:231-234 | a nonzero delta sets the velocity to `(0, delta.y)` through the setter, under the latch rule; a zero delta changes nothing |
| Scroll.StopScrolling | Assets/UI/Scripts/GridView.cs:373-374 | both velocities become zero; with ordered hard bounds the offset ends in the active range and `reachEnd` fires exactly when the old offset is past the end with the latch open; nothing else changes |
| Scroll.PointerDown | Assets/UI/Scripts/GridView.cs:366-379 | a non-primary press is ignored; a primary one captures the id, zeroes both velocities, and leaves an existing animation paused; with ordered hard bounds and a new id, the zeroing setters re-clamp the offset into the active range and fire `reachEnd` exactly when the old offset is past the end with the latch open |
| Scroll.PointerMove | Assets/UI/Scripts/GridView.cs:355-364 | a move of another pointer is ignored; a captured one sets the offset to the clamp of `(x, y + delta.y)` against the active bounds (so an in-range x is kept and an in-range y moves by the delta), disarms the click exactly when the delta is nonzero, and leaves capture, velocities and bounds alone |
| Scroll.ApplyInertia | Assets/UI/Scripts/GridView.cs:280-287 | the stop test zeroes the velocity, otherwise it is scaled by the decay factor; only velocity, offset and the latch change |
| Scroll.ApplySpringBack | Assets/UI/Scripts/GridView.cs:289-303 | the bounds test zeroes the x spring-back, y takes the smoothed value; only spring-back, offset and the latch change |
| Scroll.AnimationTick | Assets/UI/Scripts/GridView.cs:248-256 | a running animation pauses exactly when both velocities are zero afterwards and is never un-created; a tick of a non-running animation changes nothing |
| Scroll.GeometryChanged | Assets/UI/Scripts/GridView.cs:314-331 | bounds become `(0, viewH - contentH)` and `(viewW - contentW, 0)`; x is kept; y snaps to 0 when the content fits and is otherwise exactly the Unity clamp of the old y against the new active range, so an in-range y is kept |
| Scroll.GeometryChangedIdempotent | Assets/UI/Scripts/GridView.cs:314-331 | a second geometry event with the same sizes changes nothing |
| Scroll.OutBoundsExtend | Assets/UI/Scripts/GridView.cs:67-68 | the out bounds lie outside the hard bounds by exactly a tenth of the viewport (width on x, height on y), on both sides of each axis |
| Scroll.CellPointerDown | Assets/UI/Scripts/GridView.cs:217 | a press on a cell arms the click and changes nothing else |
| Scroll.InitialAsWritten | Assets/UI/Scripts/GridView.cs:24 | before any event the captured pointer id is 0, the mouse's id |
| Scroll.Initial | Assets/UI/Scripts/GridView.cs:24 | the corrected initial state captures no pointer and otherwise equals the as-written one |
| Events.Apply | Assets/UI/Scripts/GridView.cs:154-160 | every handler obeys the latch rule, never un-creates the animation, keeps the velocities vertical, and only presses and releases change the capture, a release only to invalid |
| Events.ReachEndAtMostOnce | Assets/UI/Scripts/GridView.cs:32-87 | over any event sequence between two assignments of the item source, `reachEnd` is called at most once, never when already latched, and the latch ends closed exactly when it was closed or `reachEnd` was called |
| Events.AnimationCreatedAtMostOnce | Assets/UI/Scripts/GridView.cs:242-245 | over any event sequence the post-release animation is created at most once and, once created, is never created again |
| Events.VelocitiesStayVertical | Assets/UI/Scripts/GridView.cs:231-277 | neither velocity ever gets an x component |
| Events.DragStaysInBounds | Assets/UI/Scripts/GridView.cs:355-364 | for any reaction of the `reachEnd` subscriber, each move of a drag leaves the offset within the active bounds in force before that move, so after the last move it lies within the bounds of the `waitToLoad` that held before it; the capture, bounds and geometry do not change |
| Events.DragKeepingWaitStaysInBounds | Assets/UI/Scripts/GridView.cs:355-364 | a drag whose `reachEnd` subscriber never clears `waitToLoad` keeps the offset within the active bounds after every move |
| Events.LastPageDragOvershoots | Assets/UI/Scripts/GridView.cs:78-85 | on the last page, the move that calls `reachEnd` is clamped against the elastic bound before `waitToLoad` is cleared. With content 1200 high in a 1000 view at offset -200, a move by -50 ends at -250, outside the now-active range |
| Events.OvershootSpringsBack | Assets/UI/Scripts/GridView.cs:258-268 | releasing an offset below the low bound with `waitToLoad` cleared, with or without momentum, springs it back exactly onto the low bound |
| Events.NoCaptureWithoutPress | Assets/UI/Scripts/GridView.cs:357-372 | from an uncaptured state, no sequence without a press ever captures a pointer |
| Events.FreeMoveIgnored | Assets/UI/Scripts/GridView.cs:357 | with nothing captured, a move of any real pointer changes nothing |
| Events.HoverScrollsAsWritten | Assets/UI/Scripts/GridView.cs:357-361 | from the as-written initial state, a mouse move by 10 before any press drags tall content by 10 |
| Events.HoverIgnoredFromInitial | Assets/UI/Scripts/GridView.cs:357 | from the corrected initial state the same move changes nothing |
| Events.StillReleaseSpringsBack | Assets/UI/Scripts/GridView.cs:231-268 | a release without final movement adds no momentum, yet gives an out-of-range offset a nonzero spring-back |
| Events.ClampScenario | Assets/UI/Scripts/GridView.cs:77-78 | content 1200 high in a 1000 view: bounds `(0, -200)` and `(0, 0)`, and a request for -250 is stored as -200 |
| Events.ElasticZone | Assets/UI/Scripts/GridView.cs:78-85 | while more items are awaited, a drag into the tenth of the viewport past the low bound is kept unclamped; the first such move calls `reachEnd` and a second does not |
| GridView.Update | Assets/UI/Scripts/GridView.cs:167-183 | an inert grid (`k == 0` or no source) has no lines; otherwise there are `(n + k - 1) / k` lines, laid out as the grid of the source, flattening back to it, and the bounds are recomputed from the last geometry |
| GridView.SetItemsSource | Assets/UI/Scripts/GridView.cs:32-41 | assigning the source reopens the latch and lays the grid out again |
| GridView.SetItemsSourceIdempotent | Assets/UI/Scripts/GridView.cs:32-41 | assigning the same source twice equals assigning it once, and the layout does not depend on the previous lines: no cell is duplicated |
| GridView.InertGrid | Assets/UI/Scripts/GridView.cs:179 | with `k == 0` or no source the grid has no lines |
| GridView.Click | Assets/UI/Scripts/GridView.cs:218-221 | a click selects the cell's item exactly when the click is armed |
| GridView.ClickSelectsItem | Assets/UI/Scripts/GridView.cs:211-220 | clicking cell `i % k` of line `i / k` selects item `i` of the source |
| GridView.TapVersusDrag | Assets/UI/Scripts/GridView.cs:355-376 | press then release without moving leaves the click armed; press then a nonzero move disarms it |
| Decimal.NatToString | Assets/Scripts/GallerryUI.cs:118 | the decimal form of an index is a nonempty string of digits, without a leading zero unless it is 0 |
| Decimal.ParseFormat | Assets/Scripts/GallerryUI.cs:118 | reading the decimal form back gives the index |
| Decimal.FormatInjective | Assets/Scripts/GallerryUI.cs:118 | different indices have different decimal forms |
| Gallery.UrlInjective | Assets/Scripts/GallerryUI.cs:118 | different indices are fetched from different URLs |
| Gallery.LoadImage | Assets/Scripts/GallerryUI.cs:122-125 | exactly one placeholder for the URL is appended before the download is awaited |
| Gallery.PageEnd | Assets/Scripts/GallerryUI.cs:113 | the last index is the count plus a screenful when that lies in `[0, maxImageCount]`, exactly `maxImageCount` when it is larger and 0 when it is negative; fails when `maxImageCount` is negative |
| Gallery.LoadImages | Assets/Scripts/GallerryUI.cs:110-120 | requests the consecutive indices from `count + 1`, none past `maxImageCount`, appending their placeholders in order so the list length becomes `max(count, end)`; clears `waitToLoad` exactly when `end == maxImageCount`, so always when a screenful more reaches the cap, the list then holding `max(count, maxImageCount)` items; at or past the cap it requests and appends nothing |
| Gallery.LoadImagesLoop | Assets/Scripts/GallerryUI.cs:110-120 | the `for` loop computes the same page as the closed form |
| Gallery.ItemGridStart | Assets/Scripts/GallerryUI.cs:74-79 | the first geometry event runs `LoadImages` and sets the latch; later ones request nothing |
| Gallery.ItemGridStartOnce | Assets/Scripts/GallerryUI.cs:76-78 | after one start, any further geometry event leaves the gallery unchanged and requests nothing |
| Screen.PageKeepsValid | Assets/Scripts/GallerryUI.cs:112-118 | a page appends the placeholders of the next indices, so the list stays exactly images `1 .. n` with `n <= maxImageCount` |
| Screen.AfterReachEnd | Assets/Scripts/GallerryUI.cs:53 | a `reachEnd` call pages the gallery, keeping it valid; without one the gallery is unchanged |
| Screen.UpdateList | Assets/Scripts/GallerryUI.cs:138-141 | re-publishing the list reopens the grid's latch and lays the same list out again |
| Screen.OnLayout | Assets/Scripts/GallerryUI.cs:74-79 | a geometry event keeps the list valid, never sets a cleared `waitToLoad` again, marks loading as started, and after the first one leaves the gallery as it is |
| Screen.Step | Assets/Scripts/GallerryUI.cs:122-136 | a loaded download reopens the latch; a failed or faulted one changes nothing; every event keeps the list valid and a cleared `waitToLoad` cleared |
| Screen.RunKeepsValid | Assets/Scripts/GallerryUI.cs:110-141 | over any run of events the list stays the placeholders of images `1 .. n` with `n <= maxImageCount`, and `waitToLoad` once cleared stays cleared |
| Screen.NoDuplicateRequests | Assets/Scripts/GallerryUI.cs:116-118 | in a valid gallery no image is listed twice and none past `maxImageCount` |
| Screen.Initial | Assets/Scripts/GallerryUI.cs:43-57 | set-up publishes the empty list to a grid with no lines, then sets `waitToLoad`; the grid starts from the corrected scroll state, with no pointer captured; the state is valid exactly for a non-negative maximum |

## Left out

- The inertia and spring maths (`Mathf.Pow` of the frame time, `Mathf.SmoothDamp`) is left
  out. It is frame-timed float numerics. A tick takes the outcomes of its stop and bounds
  tests and the smoothed y velocity as parameters.
- The comparison of a spring-back velocity against a bound at GridView.cs:297 is therefore
  not modelled. It sits inside the smoothing branch.
- `IsOutBound` and `IsInBound` are left out because only the physics uses them.
- `alignmentLength` and `itemCountOnScreen` are float layout measurements.
  `itemCountOnScreen` is an input of the paging model.
- Styling is left out: flex direction, padding, and cell and line sizes.
- UXML attribute parsing is left out.
- `constraintCount` is a `nat`, so a negative attribute value is not modelled. With C#'s
  truncating division, `CreateGrid` would then create no line for two or more items, so
  `AddItems` throws at its first item. It would create one line for a single item, and
  `(k - 1) / k` empty lines for no items.
- The 32-bit `int` arithmetic is modelled with unbounded integers, so its overflow is not
  modelled. This affects `itemsSource.Count + constraintCount - 1` (GridView.cs:189) and
  `_items.Count + itemCountOnScreen` (GallerryUI.cs:113). Both overflow only for counts
  near 2^31.
- `_clamp` is never written, so it is the constant `ClampEnabled`. The unclamped branch
  exists only in `OutLow`/`OutHigh`.
- Cell binding (`makeItem`, `bindItem`) is left out: a cell is its item. `onSelect` is the
  `Click` result.
- Event registration, pointer capture and release calls, and `StopPropagation` are engine
  calls. They are left out.
- Fields that are never read are left out: `_startedMoving`, `_touchStoppedVelocity` and
  `_pointerStartPosition` are only written; `_springSpeed` is read only in commented-out
  code; `_isLoading` is declared and never used.
- The network fetch (`ExtensionTexture.GetUrlImage`) and the bitmap a `GalleryItem`
  eventually holds are left out. A download's outcome is an event (`Screen.DownloadDone`).
- When a fetch fails, `GetUrlImage` returns `null`. `LoadImage` then dereferences it at
  line 134 and throws, so a failed fetch never calls `UpdateList`. A failed download is
  therefore an event without effect (`Screen.Step`).
- The preview, screen orientation, Escape handling, scene loading and dependency injection
  are left out.
- Screen.Step: when `maxImageCount` is negative, `Math.Clamp` throws inside the
  `reachEnd` call, so the latch assignment after it never runs. The model treats that call
  as one without effect and still closes the latch. Valid screens have a non-negative
  maximum, so this does not reach `Screen.RunKeepsValid`.
- Screen.Initial: the screen is set up on the corrected scroll state, with no pointer
  captured. As written, the grid starts with pointer id 0 (see "## Findings"). The two
  states differ only in that field, which `Screen.Valid` does not read.
- Concurrent downloads are modelled as an interleaving of completion events. Each
  completion is one atomic step.

## Findings

| source | as written | input that shows it | evidently intended | confidence | as-written member | corrected member |
|---|---|---|---|---|---|---|
| Assets/UI/Scripts/GridView.cs:24 | `_pointerId` has no initialiser, so it starts at 0, the id of the mouse pointer, and `OnPointerMove` treats the never-pressed mouse as captured | tall content (view 100, content 300); a mouse move by `(0, -10)` before any press drags the content to `-10` | the grid starts with no pointer captured (`PointerId.invalidPointerId`), so moves before a press are ignored | medium, not executed | Events.HoverScrollsAsWritten | Events.HoverIgnoredFromInitial |

=== FILE: clamp.dfy ===
/**
 The two clamping primitives the grid and the gallery screen rely on: Unity's `Mathf.Clamp`
 on floats (modelled over reals) and .NET's `Math.Clamp` on ints, which throws when its
 bounds are out of order.
 */
module Clamp {
  import opened Wrappers

  /** Unity's `Mathf.Clamp`: the lower bound is compared first, so when `min > max` the
      result is `min` for values below `min` and `max` for every other value. */
  function MathfClamp(v: real, min: real, max: real): (r: real)
    ensures min <= max ==> min <= r <= max
    ensures min <= v <= max ==> r == v
    ensures max < min ==> (r == min <==> v < min) && (r == max <==> v >= min)
  {
    if v < min then min else if v > max then max else v
  }

  /** On an ordered interval the clamped value is the point of the interval nearest to `v`. */
  lemma MathfClampIsNearest(v: real, min: real, max: real, u: real)
    requires min <= u <= max
    ensures Dist(v, MathfClamp(v, min, max)) <= Dist(v, u)
  {
  }

  /** Clamping an already clamped value changes nothing when the interval is ordered. */
  lemma MathfClampIdempotent(v: real, min: real, max: real)
    requires min <= max
    ensures MathfClamp(MathfClamp(v, min, max), min, max) == MathfClamp(v, min, max)
  {
  }

  function Dist(a: real, b: real): real
  {
    if a <= b then b - a else a - b
  }

  /** .NET's `Math.Clamp(int, int, int)`: `None` models the `ArgumentException` it throws
      when `min > max`. */
  function MathClamp(v: int, min: int, max: int): (r: Option<int>)
    ensures r.None? <==> min > max
    ensures r.Some? ==> min <= r.value <= max
    ensures r.Some? && min <= v <= max ==> r.value == v
    ensures r.Some? && v < min ==> r.value == min
    ensures r.Some? && v > max ==> r.value == max
  {
    if min > max then None
    else if v < min then Some(min)
    else if v > max then Some(max)
    else Some(v)
  }
}

=== FILE: decimal.dfy ===
/**
 Decimal formatting of non-negative integers, as string interpolation writes them, and its
 inverse. Image URLs embed the 1-based image index this way, so distinct indices give
 distinct URLs.
 */
module Decimal {

  predicate IsDigit(c: char)
  {
    '0' <= c <= '9'
  }

  function DigitChar(d: nat): (c: char)
    requires d < 10
    ensures IsDigit(c)
  {
    (('0' as int) + d) as char
  }

  function DigitValue(c: char): (d: nat)
    requires IsDigit(c)
    ensures d < 10
  {
    (c as int) - ('0' as int)
  }

  /** Shortest decimal representation: digits only, no leading zero. */
  function NatToString(n: nat): (s: string)
    ensures |s| > 0 && forall i :: 0 <= i < |s| ==> IsDigit(s[i])
    ensures s[0] == '0' ==> n == 0
    decreases n
  {
    if n < 10 then [DigitChar(n)] else NatToString(n / 10) + [DigitChar(n % 10)]
  }

  function ParseDecimal(s: string): nat
    requires forall i :: 0 <= i < |s| ==> IsDigit(s[i])
  {
    if |s| == 0 then 0 else ParseDecimal(s[..|s| - 1]) * 10 + DigitValue(s[|s| - 1])
  }

  /** Parsing the formatted number gives the number back. */
  lemma {:induction false} ParseFormat(n: nat)
    ensures ParseDecimal(NatToString(n)) == n
    decreases n
  {
    var s := NatToString(n);
    if n >= 10 {
      ParseFormat(n / 10);
      assert s[..|s| - 1] == NatToString(n / 10);
    }
  }

  /** Different numbers are formatted differently. */
  lemma FormatInjective(a: nat, b: nat)
    requires NatToString(a) == NatToString(b)
    ensures a == b
  {
    ParseFormat(a);
    ParseFormat(b);
  }
}

=== FILE: events.dfy ===
/**
 Sequences of events delivered to the grid's scroll state, and the properties that hold
 over any such sequence between two assignments of the item source: `reachEnd` is invoked
 at most once, the post-release animation is created at most once, a drag keeps the
 offset within the active bounds, and without a press no pointer is ever captured.
 */
module Events {
  import opened Scroll

  datatype Event =
    | Down(id: int, isPrimary: bool, delta: Vec)         // PointerDownEvent
    | Move(id: int, delta: Vec)                          // PointerMoveEvent
    | Release(id: int, delta: Vec)                       // PointerUp/Cancel/Leave/OutEvent
    | Tick(reset: bool, decay: real, inBound: bool, springBackY: real)  // scheduled animation
    | Resize(geometry: Geometry)                         // GeometryChangedEvent
    | CellDown                                           // PointerDownEvent on a cell

  /** An event together with what the `reachEnd` subscriber would do if invoked during it. */
  datatype Input = Input(event: Event, clearsWait: bool)

  /** Dispatches one event to its handler. A press on a cell reaches the cell's handler
      and then bubbles up to the grid's, so it is delivered as `CellDown` then `Down`. */
  function Apply(s: State, e: Event, clearsWait: bool): (r: Step)
    ensures Follows(s, r, clearsWait)
    ensures s.animation != Unscheduled ==> r.state.animation != Unscheduled
    ensures s.springBack.x == 0.0 ==> r.state.springBack.x == 0.0
    ensures s.velocity.x == 0.0 ==> r.state.velocity.x == 0.0
    ensures !e.Down? && !e.Release? ==> r.state.pointerId == s.pointerId
    ensures e.Release? && r.state.pointerId != s.pointerId ==> r.state.pointerId == InvalidPointerId
  {
    match e
    case Down(id, primary, delta) => PointerDown(s, id, primary, delta, clearsWait)
    case Move(id, delta) => PointerMove(s, id, delta, clearsWait)
    case Release(id, delta) => Scroll.Release(s, id, delta, clearsWait)
    case Tick(reset, decay, inBound, sby) => AnimationTick(s, reset, decay, inBound, sby, clearsWait)
    case Resize(g) => Step(GeometryChanged(s, g), false)
    case CellDown => Step(CellPointerDown(s), false)
  }

  /** Final state of a run, how many times `reachEnd` was invoked and how many times the
      post-release animation was created. */
  datatype Run = Run(state: State, reachEnds: nat, schedules: nat)

  function RunAll(s: State, inputs: seq<Input>): Run
    decreases |inputs|
  {
    if |inputs| == 0 then Run(s, 0, 0)
    else
      var step := Apply(s, inputs[0].event, inputs[0].clearsWait);
      var rest := RunAll(step.state, inputs[1..]);
      var created := s.animation == Unscheduled && step.state.animation != Unscheduled;
      Run(rest.state, rest.reachEnds + (if step.fired then 1 else 0),
          rest.schedules + (if created then 1 else 0))
  }

  /** Between two assignments of the item source `reachEnd` is invoked at most once, not
      at all once latched, and the latch is closed afterwards exactly when it was closed
      before or `reachEnd` was invoked. */
  lemma {:induction false} ReachEndAtMostOnce(s: State, inputs: seq<Input>)
    ensures RunAll(s, inputs).reachEnds <= 1
    ensures s.waiting ==> RunAll(s, inputs).reachEnds == 0
    ensures RunAll(s, inputs).state.waiting <==> s.waiting || RunAll(s, inputs).reachEnds == 1
    decreases |inputs|
  {
    if |inputs| > 0 {
      var step := Apply(s, inputs[0].event, inputs[0].clearsWait);
      ReachEndAtMostOnce(step.state, inputs[1..]);
    }
  }

  /** The post-release animation is created at most once, and never once it exists;
      afterwards it is only resumed or paused. */
  lemma {:induction false} AnimationCreatedAtMostOnce(s: State, inputs: seq<Input>)
    ensures RunAll(s, inputs).schedules <= 1
    ensures s.animation != Unscheduled ==> RunAll(s, inputs).schedules == 0
    ensures s.animation != Unscheduled ==> RunAll(s, inputs).state.animation != Unscheduled
    ensures RunAll(s, inputs).schedules == 1 ==> RunAll(s, inputs).state.animation != Unscheduled
    decreases |inputs|
  {
    if |inputs| > 0 {
      var step := Apply(s, inputs[0].event, inputs[0].clearsWait);
      AnimationCreatedAtMostOnce(step.state, inputs[1..]);
    }
  }

  /** Neither velocity ever gets an x component: the spring-back's cross-axis part is
      reserved and momentum is seeded on the y axis only. */
  lemma {:induction false} VelocitiesStayVertical(s: State, inputs: seq<Input>)
    requires s.velocity.x == 0.0 && s.springBack.x == 0.0
    ensures RunAll(s, inputs).state.velocity.x == 0.0
    ensures RunAll(s, inputs).state.springBack.x == 0.0
    decreases |inputs|
  {
    if |inputs| > 0 {
      var step := Apply(s, inputs[0].event, inputs[0].clearsWait);
      VelocitiesStayVertical(step.state, inputs[1..]);
    }
  }

  /** One move of a drag, with what the `reachEnd` subscriber would do if invoked by it. */
  datatype DragMove = DragMove(delta: Vec, clearsWait: bool)

  /** A drag: moves of the captured pointer. */
  function Drag(s: State, id: int, moves: seq<DragMove>): State
    decreases |moves|
  {
    if |moves| == 0 then s
    else Drag(PointerMove(s, id, moves[0].delta, moves[0].clearsWait).state, id, moves[1..])
  }

  /** Hard bounds ordered on both axes and a viewport of non-negative height: then the
      active range is ordered whether or not more items are awaited. */
  predicate HardOrdered(s: State)
  {
    s.low.x <= s.high.x && s.low.y <= s.high.y && s.geometry.viewHeight >= 0.0
  }

  /** One move clamps against the bounds in force before it, and keeps the capture, the
      bounds and the geometry. */
  lemma MoveStep(s: State, id: int, m: DragMove)
    requires s.pointerId == id && HardOrdered(s)
    ensures var t := PointerMove(s, id, m.delta, m.clearsWait).state;
            && InBounds(t.(waitToLoad := s.waitToLoad))
            && t.pointerId == id && t.low == s.low && t.high == s.high && t.geometry == s.geometry
            && (t.waitToLoad ==> s.waitToLoad)
  {
    var t := PointerMove(s, id, m.delta, m.clearsWait).state;
    var value := Vec(s.offset.x, s.offset.y + m.delta.y);
    assert t == SetOffset(s.(canClick := t.canClick), value, m.clearsWait).state;
    assert OutLow(s).y <= s.low.y;
  }

  /** During a drag, each move leaves the offset within the active bounds in force before
      that move, so after the last move it lies within the bounds of the `waitToLoad` that
      held before it. The pointer stays captured and the bounds do not change. */
  lemma {:induction false} DragStaysInBounds(s: State, id: int, moves: seq<DragMove>)
    requires s.pointerId == id && HardOrdered(s) && |moves| > 0
    ensures InBounds(Drag(s, id, moves).(waitToLoad := Drag(s, id, moves[..|moves| - 1]).waitToLoad))
    ensures Drag(s, id, moves).pointerId == id
    ensures Drag(s, id, moves).low == s.low && Drag(s, id, moves).high == s.high
    ensures Drag(s, id, moves).geometry == s.geometry
    decreases |moves|
  {
    var t := PointerMove(s, id, moves[0].delta, moves[0].clearsWait).state;
    MoveStep(s, id, moves[0]);
    if |moves| > 1 {
      DragStaysInBounds(t, id, moves[1..]);
      assert moves[..|moves| - 1][1..] == moves[1..][..|moves[1..]| - 1];
    } else {
      assert moves[..|moves| - 1] == [];
    }
  }

  /** A drag whose `reachEnd` subscriber keeps `waitToLoad` stays within the active bounds. */
  lemma {:induction false} DragKeepingWaitStaysInBounds(s: State, id: int, moves: seq<DragMove>)
    requires s.pointerId == id && HardOrdered(s) && |moves| > 0
    requires forall i :: 0 <= i < |moves| ==> !moves[i].clearsWait
    ensures InBounds(Drag(s, id, moves))
    ensures Drag(s, id, moves).waitToLoad == s.waitToLoad
    decreases |moves|
  {
    var t := PointerMove(s, id, moves[0].delta, moves[0].clearsWait).state;
    MoveStep(s, id, moves[0]);
    if |moves| > 1 {
      DragKeepingWaitStaysInBounds(t, id, moves[1..]);
    }
  }

  /** On the last page a drag can end below the low bound: the move that invokes
      `reachEnd` is clamped against the elastic bound, and only then is `waitToLoad`
      cleared. Content 1200 high in a view 1000 high, offset at the low bound -200. */
  lemma LastPageDragOvershoots()
    ensures var s := State(Vec(0.0, -200.0), Zero, Zero, Vec(0.0, -200.0), Vec(0.0, 0.0),
                           Geometry(100.0, 1000.0, 100.0, 1200.0), 1, false, false, true, Unscheduled);
            var r := PointerMove(s, 1, Vec(0.0, -50.0), true);
            && HardOrdered(s) && InBounds(s)
            && r.fired && !r.state.waitToLoad && r.state.offset.y == -250.0
            && !InBounds(r.state)
  {
  }

  /** Releasing after such an overshoot springs the offset back onto the low bound. */
  lemma OvershootSpringsBack(s: State, id: int, cw: bool)
    requires s.pointerId == id && !s.waitToLoad
    requires s.offset.y < s.low.y <= s.high.y
    ensures var r := Scroll.Release(s, id, Zero, cw).state;
            r.springBack.y == s.low.y - s.offset.y && r.offset.y == s.low.y
  {
    var v := InitialSpringBack(s);
    assert s.offset.y + v.y == s.low.y;
  }

  /** A run with no press never captures a pointer: the pointer id stays invalid. */
  lemma {:induction false} NoCaptureWithoutPress(s: State, inputs: seq<Input>)
    requires s.pointerId == InvalidPointerId
    requires forall i :: 0 <= i < |inputs| ==> !inputs[i].event.Down?
    ensures RunAll(s, inputs).state.pointerId == InvalidPointerId
    decreases |inputs|
  {
    if |inputs| > 0 {
      var step := Apply(s, inputs[0].event, inputs[0].clearsWait);
      NoCaptureWithoutPress(step.state, inputs[1..]);
    }
  }

  /** With no pointer captured, a move of a real pointer (ids are never negative) is
      ignored. */
  lemma FreeMoveIgnored(s: State, id: int, delta: Vec, clearsWait: bool)
    requires s.pointerId == InvalidPointerId && id >= 0
    ensures PointerMove(s, id, delta, clearsWait) == Step(s, false)
  {
  }

  const TallContent := Geometry(100.0, 100.0, 100.0, 300.0)

  /** In the grid as written, hovering the mouse over scrollable content before any press
      drags it: the never-pressed mouse pointer counts as captured. */
  lemma HoverScrollsAsWritten()
    ensures GeometryChanged(InitialAsWritten(), TallContent).offset == Zero
    ensures PointerMove(GeometryChanged(InitialAsWritten(), TallContent), MousePointerId,
                        Vec(0.0, -10.0), false).state.offset == Vec(0.0, -10.0)
  {
  }

  /** From the corrected initial state the same hover changes nothing. */
  lemma HoverIgnoredFromInitial()
    ensures PointerMove(GeometryChanged(Initial(), TallContent), MousePointerId,
                        Vec(0.0, -10.0), false) == Step(GeometryChanged(Initial(), TallContent), false)
  {
  }

  /** A release with no final movement imparts no momentum, yet still springs back an
      offset lying outside the active range. */
  lemma StillReleaseSpringsBack(s: State, id: int, clearsWait: bool)
    requires s.pointerId == id && s.velocity == Zero && s.geometry.viewHeight >= 0.0
    requires s.offset.y > s.high.y || s.offset.y < MinBound(s).y
    ensures Scroll.Release(s, id, Zero, clearsWait).state.velocity == Zero
    ensures Scroll.Release(s, id, Zero, clearsWait).state.springBack.y != 0.0
  {
    var v := InitialSpringBack(s);
    assert MinBound(s).y <= s.low.y;
    assert s.offset.y + v.y != s.offset.y;
  }

  /** Content 1200 high in a viewport 1000 high: an offset request of -250 is clamped to
      the low bound -200. */
  lemma ClampScenario()
    ensures var s := GeometryChanged(Initial(), Geometry(100.0, 1000.0, 100.0, 1200.0));
            s.low == Vec(0.0, -200.0) && s.high == Vec(0.0, 0.0) &&
            SetOffset(s, Vec(0.0, -250.0), false).state.offset == Vec(0.0, -200.0)
  {
  }

  /** While more items are awaited, a drag up to a tenth of the viewport past the low
      bound is accepted rather than clamped, and invokes `reachEnd` if the latch is open;
      a second such drag does not invoke it again. */
  lemma ElasticZone(s: State, id: int, d1: Vec, d2: Vec)
    requires s.waitToLoad && s.pointerId == id && !s.waiting
    requires s.low.x <= s.offset.x <= s.high.x
    requires OutLow(s).y <= s.offset.y + d1.y < s.low.y <= s.high.y
    requires OutLow(s).y <= s.offset.y + d1.y + d2.y < s.low.y
    ensures var a := PointerMove(s, id, d1, false);
            var b := PointerMove(a.state, id, d2, false);
            a.state.offset == Vec(s.offset.x, s.offset.y + d1.y) && a.fired &&
            b.state.offset == Vec(s.offset.x, s.offset.y + d1.y + d2.y) && !b.fired
  {
  }
}

=== FILE: gallery.dfy ===
/**
 The paging rule of the gallery screen: which 1-based image indices `LoadImages` fetches
 next, the placeholder item `LoadImage` appends for each before awaiting its download,
 when the grid is told to stop expecting more items, and the one-shot latch that makes
 the first geometry event start loading.
 */
module Gallery {
  import opened Wrappers
  import opened Clamp
  import opened Decimal

  /** A gallery item, created as soon as its download starts; the bitmap it eventually
      holds is not modelled, only the URL it was requested from. */
  datatype Item = Item(url: string)

  datatype Gallery = Gallery(
    baseUrl: string,
    maxImageCount: int,     // serialized setting, 66 by default
    items: seq<Item>,       // `_items`, shared by reference with the grid's item source
    started: bool)          // `_itemGridStarted`

  /** URL of the image with 1-based index `i`: `{baseUrl}/{i}.jpg`. */
  function Url(baseUrl: string, i: nat): string
  {
    baseUrl + "/" + NatToString(i) + ".jpg"
  }

  /** Different indices are fetched from different URLs. */
  lemma UrlInjective(baseUrl: string, i: nat, j: nat)
    requires Url(baseUrl, i) == Url(baseUrl, j)
    ensures i == j
  {
    var p := baseUrl + "/";
    var di, dj := NatToString(i), NatToString(j);
    assert Url(baseUrl, i) == p + di + ".jpg";
    assert |di| == |dj|;
    assert di == Url(baseUrl, i)[|p| .. |p| + |di|];
    assert dj == Url(baseUrl, j)[|p| .. |p| + |dj|];
    FormatInjective(i, j);
  }

  /** The outcome of a `LoadImages` call: the gallery afterwards, the indices whose
      downloads were started, in order, and whether `waitToLoad` was cleared. */
  datatype Page = Page(gallery: Gallery, requested: seq<nat>, clearsWait: bool)

  /** Placeholders for the images with the given indices, in order. */
  function Placeholders(baseUrl: string, indices: seq<nat>): (r: seq<Item>)
    ensures |r| == |indices|
    ensures forall j :: 0 <= j < |r| ==> r[j] == Item(Url(baseUrl, indices[j]))
  {
    seq(|indices|, j requires 0 <= j < |indices| => Item(Url(baseUrl, indices[j])))
  }

  /** `LoadImage`: the item for the download is appended before the download is awaited. */
  function LoadImage(g: Gallery, url: string): (r: Gallery)
    ensures r.items == g.items + [Item(url)]
    ensures r == g.(items := r.items)
  {
    g.(items := g.items + [Item(url)])
  }

  /** The indices `start .. end`, both included. */
  function Range(start: int, end: int): (r: seq<nat>)
    requires start >= 1
    ensures |r| == if end < start then 0 else end - start + 1
    ensures forall j :: 0 <= j < |r| ==> r[j] == start + j
  {
    if end < start then [] else seq(end - start + 1, j requires 0 <= j < end - start + 1 => start + j)
  }

  /** Last index `LoadImages` requests: the current count plus a screenful, clamped to
      `[0, maxImageCount]`; `None` when `Math.Clamp` throws because the maximum is
      negative. */
  function PageEnd(g: Gallery, itemCountOnScreen: int): (r: Option<int>)
    ensures r.None? <==> g.maxImageCount < 0
    ensures r.Some? ==> 0 <= r.value <= g.maxImageCount
    ensures r.Some? && 0 <= |g.items| + itemCountOnScreen <= g.maxImageCount
            ==> r.value == |g.items| + itemCountOnScreen
    ensures r.Some? && |g.items| + itemCountOnScreen > g.maxImageCount ==> r.value == g.maxImageCount
    ensures r.Some? && |g.items| + itemCountOnScreen < 0 ==> r.value == 0
  {
    MathClamp(|g.items| + itemCountOnScreen, 0, g.maxImageCount)
  }

  /** `LoadImages`: starts the downloads of the images after the ones already listed, up
      to a screenful more but never past `maxImageCount`, appending one placeholder each,
      and clears `waitToLoad` when the page reaches the maximum. */
  function LoadImages(g: Gallery, itemCountOnScreen: int): (r: Option<Page>)
    ensures r.None? <==> g.maxImageCount < 0
    ensures r.Some? ==> forall j :: 0 <= j < |r.value.requested| ==>
              r.value.requested[j] == |g.items| + 1 + j && r.value.requested[j] <= g.maxImageCount
    ensures r.Some? ==>
              r.value.gallery.items == g.items + Placeholders(g.baseUrl, r.value.requested)
    ensures r.Some? ==> |r.value.gallery.items| == Max(|g.items|, PageEnd(g, itemCountOnScreen).value)
    ensures r.Some? ==> (r.value.clearsWait <==> PageEnd(g, itemCountOnScreen).value == g.maxImageCount)
    ensures r.Some? && |g.items| >= g.maxImageCount ==>
              r.value.requested == [] && r.value.gallery == g
    ensures r.Some? && |g.items| >= g.maxImageCount && itemCountOnScreen >= 0 ==> r.value.clearsWait
    ensures r.Some? && |g.items| + itemCountOnScreen >= g.maxImageCount ==>
              r.value.clearsWait && |r.value.gallery.items| == Max(|g.items|, g.maxImageCount)
    ensures r.Some? ==> r.value.gallery == g.(items := r.value.gallery.items)
  {
    match PageEnd(g, itemCountOnScreen)
    case None => None
    case Some(end) =>
      var start := |g.items| + 1;
      var requested := Range(start, end);
      Some(Page(g.(items := g.items + Placeholders(g.baseUrl, requested)), requested,
                end == g.maxImageCount))
  }

  function Max(a: int, b: int): int
  {
    if a >= b then a else b
  }

  /** The `for` loop of `LoadImages`, one `LoadImage` call per index. */
  method LoadImagesLoop(g: Gallery, itemCountOnScreen: int) returns (r: Option<Page>)
    ensures r == LoadImages(g, itemCountOnScreen)
  {
    var end := MathClamp(|g.items| + itemCountOnScreen, 0, g.maxImageCount);
    if end.None? {
      return None;
    }
    var clears := end.value == g.maxImageCount;
    var start := |g.items| + 1;
    var cur := g;
    var requested: seq<nat> := [];
    var i := start;
    while i <= end.value
      invariant start <= i && (i <= end.value + 1 || i == start)
      invariant requested == Range(start, i - 1)
      invariant cur == g.(items := g.items + Placeholders(g.baseUrl, requested))
      decreases end.value - i
    {
      cur := LoadImage(cur, Url(g.baseUrl, i));
      requested := requested + [i];
      i := i + 1;
    }
    assert requested == Range(start, end.value);
    r := Some(Page(cur, requested, clears));
  }

  /** `ItemGridStart`: only the first geometry event starts loading. */
  function ItemGridStart(g: Gallery, itemCountOnScreen: int): (r: Option<Page>)
    ensures g.started ==> r == Some(Page(g, [], false))
    ensures !g.started ==> r == LoadImages(g.(started := true), itemCountOnScreen)
    ensures r.Some? ==> r.value.gallery.started
  {
    if g.started then Some(Page(g, [], false))
    else LoadImages(g.(started := true), itemCountOnScreen)
  }

  /** Whatever happened before, a second geometry event requests nothing. */
  lemma ItemGridStartOnce(g: Gallery, n: int, m: int)
    requires ItemGridStart(g, n).Some?
    ensures ItemGridStart(ItemGridStart(g, n).value.gallery, m)
            == Some(Page(ItemGridStart(g, n).value.gallery, [], false))
  {
  }
}

=== FILE: grid_view.dfy ===
/**
 The grid view as a whole: its scroll state, the number of cells per line, and the line
 containers built from the item source. Assigning the item source reopens the reach-end
 latch and rebuilds the layout; each cell arms a click on press, and a click selects the
 cell's item only when no drag happened in between.
 */
module GridView {
  import opened Wrappers
  import opened Layout
  import opened Scroll
  import opened Events

  datatype Grid<T> = Grid(scroll: State, constraintCount: nat, lines: seq<seq<T>>)

  /** `Update`: clears every line and, when `constraintCount` is nonzero and there is a
      source, lays the items out again and recomputes the bounds from the last resolved
      geometry. */
  function Update<T>(g: Grid<T>, source: Option<seq<T>>): (r: Grid<T>)
    ensures r.constraintCount == g.constraintCount
    ensures g.constraintCount == 0 || source.None? ==> r.lines == [] && r.scroll == g.scroll
    ensures g.constraintCount > 0 && source.Some? ==>
              && |r.lines| == LineCount(|source.value|, g.constraintCount)
              && IsGrid(r.lines, source.value, g.constraintCount)
              && Flatten(r.lines) == source.value
              && r.scroll == GeometryChanged(g.scroll, g.scroll.geometry)
  {
    if g.constraintCount == 0 || source.None? then g.(lines := [])
    else
      var lines := Chunks(source.value, g.constraintCount);
      ChunksIsGrid(source.value, g.constraintCount);
      ChunksFlatten(source.value, g.constraintCount);
      g.(lines := lines, scroll := GeometryChanged(g.scroll, g.scroll.geometry))
  }

  /** The `itemsSource` setter: reopens the reach-end latch, then `Update`. */
  function SetItemsSource<T>(g: Grid<T>, source: Option<seq<T>>): (r: Grid<T>)
    ensures !r.scroll.waiting
    ensures r == Update(g.(scroll := g.scroll.(waiting := false)), source)
  {
    Update(g.(scroll := g.scroll.(waiting := false)), source)
  }

  /** Rebuilding never depends on the previous lines, and assigning the same source twice
      gives the same grid as assigning it once: no duplicated cells. */
  lemma SetItemsSourceIdempotent<T>(g: Grid<T>, source: Option<seq<T>>)
    requires g.scroll.geometry.viewHeight >= 0.0
    ensures SetItemsSource(SetItemsSource(g, source), source) == SetItemsSource(g, source)
    ensures SetItemsSource(g.(lines := []), source) == SetItemsSource(g, source)
  {
    var once := SetItemsSource(g, source);
    if g.constraintCount > 0 && source.Some? {
      var t := g.scroll.(waiting := false);
      GeometryChangedIdempotent(t, t.geometry);
      assert once.scroll.(waiting := false) == once.scroll;
    }
  }

  /** Layout of a source with `constraintCount` zero, or of no source: an inert grid. */
  lemma InertGrid<T>(g: Grid<T>, source: Option<seq<T>>)
    requires g.constraintCount == 0 || source.None?
    ensures SetItemsSource(g, source).lines == []
  {
  }

  /** A click on the cell at `line`, `column`: selects its item when the click is still
      armed, i.e. nothing was dragged since the last press on a cell. */
  function Click<T>(g: Grid<T>, line: nat, column: nat): (r: Option<T>)
    requires line < |g.lines| && column < |g.lines[line]|
    ensures r.Some? <==> g.scroll.canClick
    ensures r.Some? ==> r.value == g.lines[line][column]
  {
    if g.scroll.canClick then Some(g.lines[line][column]) else None
  }

  /** Clicking the cell bound to item `i` selects item `i` of the source. */
  lemma ClickSelectsItem<T>(g: Grid<T>, items: seq<T>, i: nat)
    requires g.constraintCount > 0 && IsGrid(g.lines, items, g.constraintCount)
    requires i < |items| && g.scroll.canClick
    ensures i / g.constraintCount < |g.lines|
    ensures i % g.constraintCount < |g.lines[i / g.constraintCount]|
    ensures Click(g, i / g.constraintCount, i % g.constraintCount) == Some(items[i])
  {
    GridCell(g.lines, items, g.constraintCount, i);
  }

  /** A press on a cell, delivered to the cell and then to the grid. */
  function PressCell(s: State, id: int, isPrimary: bool, delta: Vec, clearsWait: bool): Step
  {
    Apply(CellPointerDown(s), Down(id, isPrimary, delta), clearsWait)
  }

  /** A tap (press, release without moving) leaves the click armed; a press followed by a
      move of the pointer disarms it. */
  lemma TapVersusDrag(s: State, id: int, d0: Vec, delta: Vec, cw: bool)
    ensures var pressed := PressCell(s, id, true, d0, cw).state;
            Apply(pressed, Release(id, Zero), cw).state.canClick
    ensures var pressed := PressCell(s, id, true, d0, cw).state;
            delta != Zero ==> !Apply(pressed, Move(id, delta), cw).state.canClick
  {
  }
}

=== FILE: layout.dfy ===
/**
 Layout partitioning of the grid: the `n` items of the source are spread over
 `(n + k - 1) / k` line containers of `k` cells each, item `i` going to line `i / k`.
 `Chunks` is the reference definition; `BuildLines` follows the two loops that create
 the lines and then append the cells.
 */
module Layout {

  function Min(a: int, b: int): int
  {
    if a <= b then a else b
  }

  /** Number of line containers created for `n` items and `k` cells per line. */
  function LineCount(n: nat, k: nat): nat
    requires k > 0
  {
    (n + k - 1) / k
  }

  /** Reference layout: consecutive runs of `k` items, the last run possibly shorter. */
  function Chunks<T>(items: seq<T>, k: nat): seq<seq<T>>
    requires k > 0
    decreases |items|
  {
    if |items| == 0 then []
    else if |items| <= k then [items]
    else [items[..k]] + Chunks(items[k..], k)
  }

  /** The cells of all lines, read line by line. */
  function Flatten<T>(lines: seq<seq<T>>): seq<T>
  {
    if |lines| == 0 then [] else lines[0] + Flatten(lines[1..])
  }

  /** Index of the first item of line `j`, i.e. `j * k`. It is written as `j` runs of `k`
      items so that facts about a grid stay in linear arithmetic, which keeps the proofs
      cheap; `LineStartIsProduct` states that it is the product. */
  function LineStart(j: nat, k: nat): nat
  {
    if j == 0 then 0 else LineStart(j - 1, k) + k
  }

  /** The items `j*k .. (j+1)*k - 1` that exist. */
  function Line<T>(items: seq<T>, k: nat, j: nat): seq<T>
    requires LineStart(j, k) <= |items|
  {
    items[LineStart(j, k) .. Min(LineStart(j, k) + k, |items|)]
  }

  /** There are `LineCount(n, k)` lines, and line `j` holds exactly `Line(items, k, j)`. */
  ghost predicate IsGrid<T>(lines: seq<seq<T>>, items: seq<T>, k: nat)
    requires k > 0
  {
    && |lines| == LineCount(|items|, k)
    && forall j :: 0 <= j < |lines| ==> LineStart(j, k) <= |items| && lines[j] == Line(items, k, j)
  }

  lemma {:induction false} LineStartIsProduct(j: nat, k: nat)
    ensures LineStart(j, k) == j * k
  {
    if j > 0 {
      LineStartIsProduct(j - 1, k);
      assert (j - 1) * k + k == j * k;
    }
  }

  lemma DivMul(i: nat, k: nat)
    requires k > 0
    ensures (i / k) * k <= i < (i / k + 1) * k
    ensures i == (i / k) * k + i % k
  {
  }

  lemma MulMono(a: nat, b: nat, k: nat)
    requires a <= b
    ensures a * k <= b * k
  {
  }

  /** Division by `k` is determined by quotient and remainder. */
  lemma DivUnique(a: nat, k: nat, q: nat, r: nat)
    requires k > 0 && r < k && a == q * k + r
    ensures a / k == q && a % k == r
  {
    var q', r' := a / k, a % k;
    assert a == q' * k + r';
    assert (q + 1) * k == q * k + k;
    assert (q' + 1) * k == q' * k + k;
    if q < q' {
      MulMono(q + 1, q', k);
      assert false;
    } else if q' < q {
      MulMono(q' + 1, q, k);
      assert false;
    }
  }

  lemma DivShift(a: nat, k: nat)
    requires k > 0
    ensures (a + k) / k == a / k + 1
    ensures (a + k) % k == a % k
  {
    assert a + k == (a / k + 1) * k + a % k;
    DivUnique(a + k, k, a / k + 1, a % k);
  }

  /** The line index of every item is below the number of lines. */
  lemma LineIndexInRange(i: nat, n: nat, k: nat)
    requires k > 0 && i < n
    ensures i / k < LineCount(n, k)
  {
    DivMul(i, k);
    DivMul(n + k - 1, k);
    if LineCount(n, k) <= i / k {
      MulMono(LineCount(n, k) + 1, i / k + 1, k);
      assert false;
    }
  }

  /** Every existing line starts on an existing item. */
  lemma LineStartInRange(j: nat, n: nat, k: nat)
    requires k > 0 && j < LineCount(n, k)
    ensures LineStart(j, k) < n
  {
    LineStartIsProduct(j, k);
    DivMul(n + k - 1, k);
    MulMono(j + 1, LineCount(n, k), k);
    assert (j + 1) * k == j * k + k;
  }

  /** Item `i` lies in line `i / k`, at offset `i % k` from its start. */
  lemma LineOfItem(i: nat, k: nat)
    requires k > 0
    ensures LineStart(i / k, k) <= i < LineStart(i / k, k) + k
    ensures i == LineStart(i / k, k) + i % k
  {
    LineStartIsProduct(i / k, k);
    DivMul(i, k);
    assert (i / k + 1) * k == (i / k) * k + k;
  }

  lemma LineCountStep(n: nat, k: nat)
    requires k > 0 && n > k
    ensures LineCount(n, k) == LineCount(n - k, k) + 1
  {
    DivShift(n - k + k - 1, k);
  }

  /** The items among the first `i` whose line index is `j`. */
  function Slot<T>(items: seq<T>, k: nat, i: nat, j: nat): seq<T>
    requires i <= |items|
  {
    items[Min(LineStart(j, k), i) .. Min(LineStart(j, k) + k, i)]
  }

  /** After the first `i` items have been appended, line `j` holds those of them whose
      line index is `j`. */
  ghost predicate PartialGrid<T>(lines: seq<seq<T>>, items: seq<T>, k: nat, i: nat)
    requires i <= |items|
  {
    forall j :: 0 <= j < |lines| ==> lines[j] == Slot(items, k, i, j)
  }

  lemma {:induction false} LineStartMono(a: nat, b: nat, k: nat)
    requires a <= b
    ensures LineStart(a, k) <= LineStart(b, k)
    decreases b
  {
    if a < b {
      LineStartMono(a, b - 1, k);
    }
  }

  lemma AppendLine<T>(lines: seq<seq<T>>, items: seq<T>, k: nat, i: nat, j: nat)
    requires k > 0 && i < |items| && PartialGrid(lines, items, k, i) && j < |lines|
    ensures (if j == i / k then lines[j] + [items[i]] else lines[j]) == Slot(items, k, i + 1, j)
  {
    var line := i / k;
    LineOfItem(i, k);
    assert lines[j] == Slot(items, k, i, j);
    if j < line {
      LineStartMono(j + 1, line, k);
    } else if j > line {
      LineStartMono(line + 1, j, k);
    } else {
      var a := LineStart(j, k);
      assert items[a .. i + 1] == items[a .. i] + [items[i]];
    }
  }

  /** Appending item `i` to line `i / k` extends a partial grid by one item. */
  lemma AppendStep<T>(lines: seq<seq<T>>, items: seq<T>, k: nat, i: nat)
    requires k > 0 && i < |items| && PartialGrid(lines, items, k, i)
    requires |lines| == LineCount(|items|, k)
    ensures i / k < |lines|
    ensures PartialGrid(lines[i / k := lines[i / k] + [items[i]]], items, k, i + 1)
  {
    LineIndexInRange(i, |items|, k);
    var next := lines[i / k := lines[i / k] + [items[i]]];
    forall j | 0 <= j < |next|
      ensures next[j] == Slot(items, k, i + 1, j)
    {
      AppendLine(lines, items, k, i, j);
      assert next[j] == if j == i / k then lines[j] + [items[i]] else lines[j];
    }
  }

  /** Empty line containers are a partial grid of no items. */
  lemma EmptyPartial<T>(lines: seq<seq<T>>, items: seq<T>, k: nat)
    requires forall j :: 0 <= j < |lines| ==> lines[j] == []
    ensures PartialGrid(lines, items, k, 0)
  {
    forall j | 0 <= j < |lines|
      ensures lines[j] == Slot(items, k, 0, j)
    {
      assert Slot(items, k, 0, j) == items[0 .. 0] == [];
    }
  }

  /** Once every item has been appended, the partial grid is the grid. */
  lemma PartialComplete<T>(lines: seq<seq<T>>, items: seq<T>, k: nat)
    requires k > 0 && PartialGrid(lines, items, k, |items|)
    requires |lines| == LineCount(|items|, k)
    ensures IsGrid(lines, items, k)
    ensures lines == Chunks(items, k)
  {
    ChunksIsGrid(items, k);
    forall j | 0 <= j < |lines|
      ensures LineStart(j, k) <= |items| && lines[j] == Line(items, k, j)
    {
      LineStartInRange(j, |items|, k);
      assert lines[j] == Slot(items, k, |items|, j);
    }
    GridUnique(lines, Chunks(items, k), items, k);
  }

  /** `CreateGrid`: one empty line container per started run of `k` items. */
  method CreateGrid<T>(n: nat, k: nat) returns (lines: seq<seq<T>>)
    requires k > 0
    ensures |lines| == LineCount(n, k)
    ensures forall j :: 0 <= j < |lines| ==> lines[j] == []
  {
    var count := (n + k - 1) / k;
    lines := [];
    var i := 0;
    while i < count
      invariant 0 <= i <= count
      invariant |lines| == i
      invariant forall j :: 0 <= j < i ==> lines[j] == []
    {
      lines := lines + [[]];
      i := i + 1;
    }
  }

  /** `AddItems`: each item, in source order, is appended to line `i / k` of the empty
      line containers. */
  method AddItems<T>(items: seq<T>, k: nat, empty: seq<seq<T>>) returns (lines: seq<seq<T>>)
    requires k > 0 && |empty| == LineCount(|items|, k)
    requires forall j :: 0 <= j < |empty| ==> empty[j] == []
    ensures IsGrid(lines, items, k)
    ensures lines == Chunks(items, k)
  {
    lines := empty;
    EmptyPartial(lines, items, k);
    var i := 0;
    while i < |items|
      invariant 0 <= i <= |items|
      invariant |lines| == LineCount(|items|, k)
      invariant PartialGrid(lines, items, k, i)
    {
      AppendStep(lines, items, k, i);
      lines := lines[i / k := lines[i / k] + [items[i]]];
      i := i + 1;
    }
    PartialComplete(lines, items, k);
  }

  /** The layout pass of `Update` for a present source and `k > 0`: `CreateGrid`, then
      `AddItems`. */
  method BuildLines<T>(items: seq<T>, k: nat) returns (lines: seq<seq<T>>)
    requires k > 0
    ensures IsGrid(lines, items, k)
    ensures lines == Chunks(items, k)
  {
    var empty := CreateGrid<T>(|items|, k);
    lines := AddItems(items, k, empty);
  }

  /** Line `j` of the items after the first `k` is line `j + 1` of all items. */
  lemma ShiftedLine<T>(items: seq<T>, k: nat, j: nat)
    requires 0 < k < |items| && LineStart(j, k) <= |items| - k
    ensures LineStart(j + 1, k) <= |items|
    ensures Line(items[k..], k, j) == Line(items, k, j + 1)
  {
    var n, a := |items|, LineStart(j, k);
    assert LineStart(j + 1, k) == a + k;
    var e := Min(a + k, n - k);
    assert e + k == Min(a + k + k, n);
    assert Line(items[k..], k, j) == items[k..][a .. e];
    assert Line(items, k, j + 1) == items[a + k .. e + k];
    assert 0 <= a <= e <= n - k;
    forall t | 0 <= t < e - a
      ensures items[k..][a .. e][t] == items[a + k .. e + k][t]
    {
    }
  }

  /** Putting the first `k` items in front of a grid of the remaining items gives a grid
      of all items. */
  lemma ConsGrid<T>(items: seq<T>, k: nat, rest: seq<seq<T>>)
    requires 0 < k < |items| && IsGrid(rest, items[k..], k)
    ensures IsGrid([items[..k]] + rest, items, k)
  {
    var n := |items|;
    var lines := [items[..k]] + rest;
    LineCountStep(n, k);
    forall j | 0 <= j < |lines|
      ensures LineStart(j, k) <= n && lines[j] == Line(items, k, j)
    {
      if j == 0 {
        assert Line(items, k, 0) == items[0 .. k];
      } else {
        assert lines[j] == rest[j - 1];
        ShiftedLine(items, k, j - 1);
      }
    }
  }

  /** The reference layout satisfies the placement rule. */
  lemma {:induction false} ChunksIsGrid<T>(items: seq<T>, k: nat)
    requires k > 0
    ensures IsGrid(Chunks(items, k), items, k)
    decreases |items|
  {
    var n := |items|;
    if n == 0 {
    } else if n <= k {
      assert LineCount(n, k) == 1 by {
        DivShift(n - 1, k);
      }
      assert Line(items, k, 0) == items[0 .. n];
    } else {
      ChunksIsGrid(items[k..], k);
      ConsGrid(items, k, Chunks(items[k..], k));
    }
  }

  /** The placement rule determines the lines completely. */
  lemma GridUnique<T>(a: seq<seq<T>>, b: seq<seq<T>>, items: seq<T>, k: nat)
    requires k > 0 && IsGrid(a, items, k) && IsGrid(b, items, k)
    ensures a == b
  {
    assert forall j | 0 <= j < |a| :: a[j] == b[j];
  }

  /** A line of a grid holds between one and `k` cells, and exactly `k` unless it is last. */
  lemma GridLineSize<T>(lines: seq<seq<T>>, items: seq<T>, k: nat, j: nat)
    requires k > 0 && IsGrid(lines, items, k) && j < |lines|
    ensures 0 < |lines[j]| <= k
    ensures j < |lines| - 1 ==> |lines[j]| == k
  {
    LineStartInRange(j, |items|, k);
    if j < |lines| - 1 {
      LineStartInRange(j + 1, |items|, k);
      assert LineStart(j + 1, k) == LineStart(j, k) + k;
    }
  }

  /** Item `i` of a grid is cell `i % k` of line `i / k`. */
  lemma GridCell<T>(lines: seq<seq<T>>, items: seq<T>, k: nat, i: nat)
    requires k > 0 && IsGrid(lines, items, k) && i < |items|
    ensures i / k < |lines| && i % k < |lines[i / k]| && lines[i / k][i % k] == items[i]
  {
    var j, r := i / k, i % k;
    LineIndexInRange(i, |items|, k);
    LineOfItem(i, k);
    var line := Line(items, k, j);
    assert lines[j] == line;
    assert line[r] == items[LineStart(j, k) + r];
  }

  /** Every line of a grid holds between one and `k` cells, and exactly `k` unless it is
      the last. */
  lemma GridLineSizes<T>(lines: seq<seq<T>>, items: seq<T>, k: nat)
    requires k > 0 && IsGrid(lines, items, k)
    ensures forall j :: 0 <= j < |lines| ==> 0 < |lines[j]| <= k
    ensures forall j :: 0 <= j < |lines| - 1 ==> |lines[j]| == k
  {
    forall j | 0 <= j < |lines|
      ensures 0 < |lines[j]| <= k
      ensures j < |lines| - 1 ==> |lines[j]| == k
    {
      GridLineSize(lines, items, k, j);
    }
  }

  /** Item `i` of a grid sits in line `i / k` at position `i % k`. */
  lemma GridCells<T>(lines: seq<seq<T>>, items: seq<T>, k: nat)
    requires k > 0 && IsGrid(lines, items, k)
    ensures forall i :: 0 <= i < |items| ==>
              i / k < |lines| && i % k < |lines[i / k]| && lines[i / k][i % k] == items[i]
  {
    forall i | 0 <= i < |items|
      ensures i / k < |lines| && i % k < |lines[i / k]| && lines[i / k][i % k] == items[i]
    {
      GridCell(lines, items, k, i);
    }
  }

  lemma FlattenCons<T>(line: seq<T>, rest: seq<seq<T>>)
    ensures Flatten([line] + rest) == line + Flatten(rest)
  {
    assert ([line] + rest)[1..] == rest;
  }

  /** Reading the lines back in order gives the source: every item appears once, in
      source order, so the cell count is `n`. */
  lemma {:induction false} ChunksFlatten<T>(items: seq<T>, k: nat)
    requires k > 0
    ensures Flatten(Chunks(items, k)) == items
    ensures |Flatten(Chunks(items, k))| == |items|
    decreases |items|
  {
    if |items| == 0 {
    } else if |items| <= k {
      FlattenCons(items, []);
      assert items + [] == items;
    } else {
      var rest := Chunks(items[k..], k);
      ChunksFlatten(items[k..], k);
      assert Chunks(items, k) == [items[..k]] + rest;
      FlattenCons(items[..k], rest);
      assert items[..k] + items[k..] == items;
    }
  }
}

=== FILE: screen.dfy ===
/**
 The gallery screen driving the grid: the grid's `reachEnd` is wired to `LoadImages`, the
 first geometry event starts loading, and each completed download re-publishes the item
 list as the grid's item source. The properties proved here hold over any sequence of
 events: the item list is exactly the placeholders for images `1 .. n` in order, `n`
 never exceeds `maxImageCount`, and once `waitToLoad` has been cleared it stays cleared.
 */
module Screen {
  import opened Wrappers
  import opened Scroll
  import opened Events
  import opened GridView
  import opened Gallery

  datatype Screen = Screen(grid: Grid<Item>, gallery: Gallery, itemCountOnScreen: int)

  /** How a download started by `LoadImage` ends: with a bitmap, with the `null` the
      fetcher returns on a transport or protocol error, or with an exception. */
  datatype Download = Loaded | Failed | Faulted

  datatype ScreenEvent =
    | Input(event: Event)                                  // delivered to the grid
    | Layout(geometry: Geometry, itemCountOnScreen: int)   // GeometryChangedEvent
    | DownloadDone(outcome: Download)                      // a `LoadImage` resumes

  /** The list holds the placeholders for images `1 .. n`, in order, `n <= maxImageCount`. */
  ghost predicate Valid(sc: Screen)
  {
    ValidGallery(sc.gallery)
  }

  ghost predicate ValidGallery(g: Gallery)
  {
    && g.maxImageCount >= 0
    && |g.items| <= g.maxImageCount
    && forall j :: 0 <= j < |g.items| ==> g.items[j] == Item(Url(g.baseUrl, j + 1))
  }

  /** What `LoadImages` would do to `waitToLoad` if the grid invoked `reachEnd` now. */
  function ClearsWait(sc: Screen): bool
  {
    match LoadImages(sc.gallery, sc.itemCountOnScreen)
    case Some(page) => page.clearsWait
    case None => false
  }

  /** A page appends the placeholders of the next indices, so the list stays valid. */
  lemma PageKeepsValid(g: Gallery, n: int)
    ensures ValidGallery(g) ==> LoadImages(g, n).Some? && ValidGallery(LoadImages(g, n).value.gallery)
  {
    if !ValidGallery(g) { return; }
    var r := LoadImages(g, n).value;
    var items := r.gallery.items;
    forall j | 0 <= j < |items|
      ensures items[j] == Item(Url(g.baseUrl, j + 1))
    {
      if j >= |g.items| {
        assert items[j] == Placeholders(g.baseUrl, r.requested)[j - |g.items|];
      }
    }
  }

  /** The gallery after `reachEnd`, if it was invoked. */
  function AfterReachEnd(sc: Screen, fired: bool): (r: Gallery)
    ensures ValidGallery(sc.gallery) ==> ValidGallery(r)
    ensures r.baseUrl == sc.gallery.baseUrl && r.maxImageCount == sc.gallery.maxImageCount
    ensures !fired ==> r == sc.gallery
  {
    PageKeepsValid(sc.gallery, sc.itemCountOnScreen);
    if !fired then sc.gallery
    else match LoadImages(sc.gallery, sc.itemCountOnScreen)
      case Some(page) => page.gallery
      case None => sc.gallery
  }

  /** `UpdateList`: the same list is assigned to the grid's item source again. */
  function UpdateList(sc: Screen): (r: Screen)
    ensures !r.grid.scroll.waiting
    ensures r.gallery == sc.gallery
    ensures r.grid == SetItemsSource(sc.grid, Some(sc.gallery.items))
  {
    sc.(grid := SetItemsSource(sc.grid, Some(sc.gallery.items)))
  }

  /** The geometry event: the grid's handler (registered first) recomputes the bounds,
      then `ItemGridStart` starts loading the first time. */
  function OnLayout(sc: Screen, g: Geometry, n: int): (r: Screen)
    ensures Valid(sc) ==> Valid(r)
    ensures !sc.grid.scroll.waitToLoad ==> !r.grid.scroll.waitToLoad
    ensures r.gallery.baseUrl == sc.gallery.baseUrl
    ensures r.gallery.maxImageCount == sc.gallery.maxImageCount
    ensures sc.gallery.started ==> r.gallery == sc.gallery
    ensures r.gallery.started
  {
    PageKeepsValid(sc.gallery.(started := true), n);
    var scroll := GeometryChanged(sc.grid.scroll, g);
    match ItemGridStart(sc.gallery, n)
    case Some(page) =>
      Screen(sc.grid.(scroll := scroll.(waitToLoad := scroll.waitToLoad && !page.clearsWait)),
             page.gallery, n)
    case None => Screen(sc.grid.(scroll := scroll), sc.gallery.(started := true), n)
  }

  /** One event of the screen. A download that ends with the `null` bitmap makes
      `LoadImage` dereference it and throw, so only a loaded bitmap re-publishes the list. */
  function Step(sc: Screen, e: ScreenEvent): (r: Screen)
    ensures e.DownloadDone? && e.outcome == Loaded ==> !r.grid.scroll.waiting
    ensures e.DownloadDone? && e.outcome != Loaded ==> r == sc
    ensures Valid(sc) ==> Valid(r)
    ensures !sc.grid.scroll.waitToLoad ==> !r.grid.scroll.waitToLoad
    ensures r.gallery.baseUrl == sc.gallery.baseUrl
    ensures r.gallery.maxImageCount == sc.gallery.maxImageCount
  {
    match e
    case Input(Resize(g)) => OnLayout(sc, g, sc.itemCountOnScreen)
    case Input(ev) =>
      var step := Apply(sc.grid.scroll, ev, ClearsWait(sc));
      Screen(sc.grid.(scroll := step.state), AfterReachEnd(sc, step.fired), sc.itemCountOnScreen)
    case Layout(g, n) => OnLayout(sc, g, n)
    case DownloadDone(outcome) => if outcome == Loaded then UpdateList(sc) else sc
  }

  function Run(sc: Screen, events: seq<ScreenEvent>): Screen
    decreases |events|
  {
    if |events| == 0 then sc else Run(Step(sc, events[0]), events[1..])
  }

  /** Over any run: the list stays the placeholders of images `1 .. n` with
      `n <= maxImageCount`, and a cleared `waitToLoad` is never set again. */
  lemma {:induction false} RunKeepsValid(sc: Screen, events: seq<ScreenEvent>)
    requires Valid(sc)
    ensures Valid(Run(sc, events))
    ensures !sc.grid.scroll.waitToLoad ==> !Run(sc, events).grid.scroll.waitToLoad
    decreases |events|
  {
    if |events| > 0 {
      RunKeepsValid(Step(sc, events[0]), events[1..]);
    }
  }

  /** No image is ever requested twice, and none past `maxImageCount`. */
  lemma NoDuplicateRequests(sc: Screen)
    requires Valid(sc)
    ensures forall i, j :: 0 <= i < j < |sc.gallery.items| ==> sc.gallery.items[i] != sc.gallery.items[j]
    ensures |sc.gallery.items| <= sc.gallery.maxImageCount
  {
    forall i, j | 0 <= i < j < |sc.gallery.items|
      ensures sc.gallery.items[i] != sc.gallery.items[j]
    {
      if sc.gallery.items[i] == sc.gallery.items[j] {
        UrlInjective(sc.gallery.baseUrl, i + 1, j + 1);
      }
    }
  }

  /** `SetUpGridView`: the (empty) list is published, then `waitToLoad` is set. The grid
      starts from the corrected scroll state, with no pointer captured. */
  function Initial(baseUrl: string, maxImageCount: int, constraintCount: nat): (sc: Screen)
    ensures sc.gallery.items == [] && !sc.gallery.started
    ensures sc.grid.scroll.waitToLoad && !sc.grid.scroll.waiting
    ensures sc.grid.scroll.pointerId == InvalidPointerId && sc.grid.lines == []
    ensures maxImageCount >= 0 <==> Valid(sc)
  {
    var gallery := Gallery(baseUrl, maxImageCount, [], false);
    var grid := SetItemsSource(Grid(Scroll.Initial(), constraintCount, []), Some([]));
    Screen(grid.(scroll := grid.scroll.(waitToLoad := true)), gallery, 0)
  }
}

=== FILE: scroll.dfy ===
/**
 The scroll state of the grid view and its event transitions: the clamping offset setter
 with its reach-end latch, the pointer capture state machine (down, move, release), the
 post-release animation's schedule/resume/pause logic, and the bounds recomputed on a
 geometry change.

 The grid's one `reachEnd` subscriber may react by clearing `waitToLoad`; every transition
 takes `clearsWait`, whether that subscriber would clear it if invoked now, and reports in
 `fired` whether it was invoked. Because of the latch it is invoked at most once per event.
 */
module Scroll {
  import opened Clamp

  datatype Vec = Vec(x: real, y: real) {
    function Add(d: Vec): Vec
    {
      Vec(x + d.x, y + d.y)
    }

    function Scale(f: real): Vec
    {
      Vec(x * f, y * f)
    }
  }

  const Zero := Vec(0.0, 0.0)

  /** The engine's `PointerId.invalidPointerId`. */
  const InvalidPointerId := -1

  /** The id the engine gives the mouse pointer, and the default value of an `int` field. */
  const MousePointerId := 0

  /** The grid's `_clamp` flag: initialised to true and never written. */
  const ClampEnabled := true

  /** Fraction of the viewport by which the "out" bounds extend the hard bounds. */
  const OutMargin := 0.1

  /** Sizes resolved by the layout engine: the grid element (viewport) and its content
      container. */
  datatype Geometry = Geometry(viewWidth: real, viewHeight: real,
                               contentWidth: real, contentHeight: real)

  /** The post-release animation: not yet created, or created and running or paused. */
  datatype Animation = Unscheduled | Running | Paused

  datatype State = State(
    offset: Vec,            // content position (`contentContainer.transform.position`)
    velocity: Vec,          // `_scrollVelocity`
    springBack: Vec,        // `_springBackVelocity`
    low: Vec,               // `_lowBound`
    high: Vec,              // `_highBound`
    geometry: Geometry,     // last resolved sizes
    pointerId: int,         // captured pointer, or `InvalidPointerId`
    canClick: bool,         // no drag since the last press on a cell
    waiting: bool,          // reach-end latch
    waitToLoad: bool,       // the owner expects more items
    animation: Animation)

  function OutHigh(s: State): Vec
  {
    s.high.Add(Vec(s.geometry.viewWidth * OutMargin, s.geometry.viewHeight * OutMargin))
  }

  function OutLow(s: State): Vec
  {
    s.low.Add(Vec(-(s.geometry.viewWidth * OutMargin), -(s.geometry.viewHeight * OutMargin)))
  }

  /** Lower end of the range the offset setter clamps to: the hard bound, except on the
      y axis while more items are awaited, where the "out" bound gives elastic slack. */
  function MinBound(s: State): Vec
  {
    Vec(if ClampEnabled then s.low.x else OutLow(s).x,
        if ClampEnabled && !s.waitToLoad then s.low.y else OutLow(s).y)
  }

  /** Upper end of the range the offset setter clamps to. */
  function MaxBound(s: State): Vec
  {
    if ClampEnabled then s.high else OutHigh(s)
  }

  predicate Ordered(s: State)
  {
    MinBound(s).x <= MaxBound(s).x && MinBound(s).y <= MaxBound(s).y
  }

  predicate InBounds(s: State)
  {
    && MinBound(s).x <= s.offset.x <= MaxBound(s).x
    && MinBound(s).y <= s.offset.y <= MaxBound(s).y
  }

  /** The requested offset crossed the trailing edge of the content. */
  predicate PastEnd(s: State, value: Vec)
  {
    value.x > s.high.x || value.y < s.low.y
  }

  /** A state after a transition, and whether `reachEnd` was invoked during it. */
  datatype Step = Step(state: State, fired: bool)

  /** The latch and the subscriber's reaction, across one transition from `s` to `r`:
      an already latched grid does not invoke `reachEnd` and stays latched; an open one is
      latched afterwards exactly when it invoked it; `waitToLoad` is cleared only by an
      invocation whose subscriber clears it. */
  predicate Follows(s: State, r: Step, clearsWait: bool)
  {
    && (s.waiting ==> !r.fired && r.state.waiting)
    && (!s.waiting ==> (r.state.waiting <==> r.fired))
    && (r.state.waitToLoad <==> s.waitToLoad && !(r.fired && clearsWait))
  }

  /** The `scrollOffset` setter: clamps the request to the active bounds, and invokes
      `reachEnd` if the unclamped request crossed the trailing edge and the latch is open. */
  function SetOffset(s: State, value: Vec, clearsWait: bool): (r: Step)
    ensures r.state.offset == Vec(MathfClamp(value.x, MinBound(s).x, MaxBound(s).x),
                                  MathfClamp(value.y, MinBound(s).y, MaxBound(s).y))
    ensures Ordered(s) ==> InBounds(r.state.(waitToLoad := s.waitToLoad))
    ensures MinBound(s).x <= value.x <= MaxBound(s).x ==> r.state.offset.x == value.x
    ensures MinBound(s).y <= value.y <= MaxBound(s).y ==> r.state.offset.y == value.y
    ensures r.fired <==> PastEnd(s, value) && !s.waiting
    ensures r.state.waiting <==> s.waiting || r.fired
    ensures r.state.waitToLoad <==> s.waitToLoad && !(r.fired && clearsWait)
    ensures r.state == s.(offset := r.state.offset, waiting := r.state.waiting,
                          waitToLoad := r.state.waitToLoad)
  {
    var x := MathfClamp(value.x, if ClampEnabled then s.low.x else OutLow(s).x,
                                 if ClampEnabled then s.high.x else OutHigh(s).x);
    var y := MathfClamp(value.y, if ClampEnabled && !s.waitToLoad then s.low.y else OutLow(s).y,
                                 if ClampEnabled then s.high.y else OutHigh(s).y);
    var fired := PastEnd(s, value) && !s.waiting;
    Step(s.(offset := Vec(x, y), waiting := s.waiting || fired,
            waitToLoad := s.waitToLoad && !(fired && clearsWait)),
         fired)
  }

  /** The `scrollVelocity` setter: stores the velocity and moves the offset by it. */
  function SetVelocity(s: State, v: Vec, clearsWait: bool): (r: Step)
    ensures r.state.velocity == v
    ensures Follows(s, r, clearsWait)
    ensures r.fired <==> PastEnd(s, s.offset.Add(v)) && !s.waiting
    ensures r.state.offset == Vec(MathfClamp(s.offset.x + v.x, MinBound(s).x, MaxBound(s).x),
                                  MathfClamp(s.offset.y + v.y, MinBound(s).y, MaxBound(s).y))
    ensures InBounds(s.(offset := s.offset.Add(v))) ==> r.state.offset == s.offset.Add(v)
    ensures r.state == s.(velocity := v, offset := r.state.offset, waiting := r.state.waiting,
                          waitToLoad := r.state.waitToLoad)
  {
    SetOffset(s.(velocity := v), s.offset.Add(v), clearsWait)
  }

  /** The `springBackVelocity` setter: stores the velocity and moves the offset by it. */
  function SetSpringBack(s: State, v: Vec, clearsWait: bool): (r: Step)
    ensures r.state.springBack == v
    ensures Follows(s, r, clearsWait)
    ensures r.fired <==> PastEnd(s, s.offset.Add(v)) && !s.waiting
    ensures r.state.offset == Vec(MathfClamp(s.offset.x + v.x, MinBound(s).x, MaxBound(s).x),
                                  MathfClamp(s.offset.y + v.y, MinBound(s).y, MaxBound(s).y))
    ensures InBounds(s.(offset := s.offset.Add(v))) ==> r.state.offset == s.offset.Add(v)
    ensures r.state == s.(springBack := v, offset := r.state.offset, waiting := r.state.waiting,
                          waitToLoad := r.state.waitToLoad)
  {
    SetOffset(s.(springBack := v), s.offset.Add(v), clearsWait)
  }

  /** Runs `b` after `a`: `reachEnd` was invoked if either invoked it. */
  function Then(a: Step, b: Step): Step
  {
    Step(b.state, a.fired || b.fired)
  }

  /** `ComputeInitialSpringBackVelocity`: the displacement that puts an offset lying
      outside the active y range back onto the hard bound it crossed; nothing on the
      x axis. */
  function InitialSpringBack(s: State): (v: Vec)
    ensures v.x == 0.0
    ensures s.offset.y > s.high.y ==> s.offset.y + v.y == s.high.y
    ensures s.offset.y < MinBound(s).y && s.offset.y <= s.high.y ==> s.offset.y + v.y == s.low.y
    ensures MinBound(s).y <= s.offset.y <= s.high.y ==> v.y == 0.0
  {
    var min := if s.waitToLoad then OutLow(s) else s.low;
    var max := s.high;
    var y0 := if s.offset.y < min.y then s.low.y - s.offset.y else 0.0;
    var y1 := if s.offset.y > max.y then s.high.y - s.offset.y else y0;
    Vec(0.0, y1)
  }

  /** `ExecuteElasticSpringAnimation`: applies the initial spring-back, then creates the
      post-release animation if it does not exist yet and resumes it otherwise. */
  function StartSpringAnimation(s: State, clearsWait: bool): (r: Step)
    ensures r.state.animation == Running
    ensures Follows(s, r, clearsWait)
    ensures r.state.springBack == InitialSpringBack(s)
    ensures r.state.offset == Vec(MathfClamp(s.offset.x, MinBound(s).x, MaxBound(s).x),
                                  MathfClamp(s.offset.y + InitialSpringBack(s).y,
                                             MinBound(s).y, MaxBound(s).y))
    ensures r.fired <==> PastEnd(s, s.offset.Add(InitialSpringBack(s))) && !s.waiting
    ensures r.state.geometry == s.geometry
    ensures r.state.velocity == s.velocity && r.state.pointerId == s.pointerId
    ensures r.state.canClick == s.canClick && r.state.low == s.low && r.state.high == s.high
  {
    var sb := SetSpringBack(s, InitialSpringBack(s), clearsWait);
    Step(sb.state.(animation := Running), sb.fired)
  }

  /** The momentum part of `ReleaseScrolling`: a nonzero last delta becomes a y-only
      scroll velocity, through its setter; a zero one leaves the state alone. */
  function Momentum(s: State, delta: Vec, clearsWait: bool): (r: Step)
    ensures Follows(s, r, clearsWait)
    ensures delta != Zero ==> r.state.velocity == Vec(0.0, delta.y)
    ensures delta == Zero ==> r == Step(s, false)
  {
    if delta != Zero then SetVelocity(s, Vec(0.0, delta.y), clearsWait)
    else Step(s, false)
  }

  /** `ReleaseScrolling` (pointer up, cancel, leave or out): a release of the captured
      pointer frees it, seeds a y-only momentum from a nonzero last delta, and starts the
      spring-back animation; a release of any other pointer is ignored. */
  function Release(s: State, id: int, delta: Vec, clearsWait: bool): (r: Step)
    ensures s.pointerId != id ==> r == Step(s, false)
    ensures Follows(s, r, clearsWait)
    ensures s.velocity.x == 0.0 ==> r.state.velocity.x == 0.0
    ensures s.pointerId == id ==> r.state.pointerId == InvalidPointerId
    ensures s.pointerId == id ==> r.state.animation == Running
    ensures s.pointerId == id && delta != Zero ==> r.state.velocity == Vec(0.0, delta.y)
    ensures s.pointerId == id && delta == Zero ==> r.state.velocity == s.velocity
    ensures s.pointerId == id ==> r.state.springBack.x == 0.0
    ensures s.pointerId == id && delta == Zero ==> r.state.springBack == InitialSpringBack(s)
    ensures s.pointerId == id ==>
              var mo := Momentum(s.(pointerId := InvalidPointerId), delta, clearsWait);
              var m := mo.state;
              && r.state.springBack == InitialSpringBack(m)
              && r.state.offset == Vec(MathfClamp(m.offset.x, MinBound(m).x, MaxBound(m).x),
                                       MathfClamp(m.offset.y + InitialSpringBack(m).y,
                                                  MinBound(m).y, MaxBound(m).y))
              && (r.fired <==> mo.fired || (PastEnd(m, m.offset.Add(InitialSpringBack(m))) && !m.waiting))
              && r.state.geometry == s.geometry
    ensures s.pointerId == id && s.low.y <= s.high.y && s.geometry.viewHeight >= 0.0 ==>
              var m := Momentum(s.(pointerId := InvalidPointerId), delta, clearsWait).state;
              MinBound(m).y <= r.state.offset.y <= s.high.y
    ensures r.state.canClick == s.canClick && r.state.low == s.low && r.state.high == s.high
  {
    if s.pointerId != id then Step(s, false)
    else
      var freed := s.(pointerId := InvalidPointerId);
      var momentum := Momentum(freed, delta, clearsWait);
      var spring := StartSpringAnimation(momentum.state, clearsWait);
      Then(momentum, spring)
  }

  /** The two zeroing setters of `OnPointerDown`: both velocities become zero, and the
      offset is re-clamped into the active range on the way. */
  function StopScrolling(s: State, clearsWait: bool): (r: Step)
    ensures r.state.velocity == Zero && r.state.springBack == Zero
    ensures Follows(s, r, clearsWait)
    ensures r.state == s.(velocity := Zero, springBack := Zero, offset := r.state.offset,
                          waiting := r.state.waiting, waitToLoad := r.state.waitToLoad)
    ensures s.low.x <= s.high.x && s.low.y <= s.high.y && s.geometry.viewHeight >= 0.0
            ==> InBounds(r.state) && (r.fired <==> PastEnd(s, s.offset) && !s.waiting)
  {
    var a := SetSpringBack(s, Zero, clearsWait);
    var b := SetVelocity(a.state, Zero, clearsWait);
    assert s.offset.Add(Zero) == s.offset;
    assert a.state.offset.Add(Zero) == a.state.offset;
    Then(a, b)
  }

  /** `OnPointerDown`: a primary press releases a previously captured pointer (through
      `Release`, which ignores a different id), pauses the animation, captures the new
      pointer and zeroes both velocities; a non-primary press is ignored. */
  function PointerDown(s: State, id: int, isPrimary: bool, delta: Vec, clearsWait: bool): (r: Step)
    ensures !isPrimary ==> r == Step(s, false)
    ensures Follows(s, r, clearsWait)
    ensures isPrimary ==> r.state.pointerId == id
    ensures isPrimary ==> r.state.velocity == Zero && r.state.springBack == Zero
    ensures isPrimary ==> r.state.animation != Running
    ensures isPrimary && s.animation != Unscheduled ==> r.state.animation == Paused
    ensures isPrimary && s.pointerId != id && s.low.x <= s.high.x && s.low.y <= s.high.y
            && s.geometry.viewHeight >= 0.0
            ==> InBounds(r.state) && r.state.geometry == s.geometry
                && (r.fired <==> PastEnd(s, s.offset) && !s.waiting)
    ensures r.state.canClick == s.canClick && r.state.low == s.low && r.state.high == s.high
  {
    if !isPrimary then Step(s, false)
    else
      var released := if s.pointerId != InvalidPointerId then Release(s, id, delta, clearsWait)
                      else Step(s, false);
      var t := released.state;
      var captured := t.(animation := if t.animation == Unscheduled then Unscheduled else Paused,
                         pointerId := id);
      Then(released, StopScrolling(captured, clearsWait))
  }

  /** `OnPointerMove`: a move of the captured pointer drags the content by the y part of
      the delta only and cancels a pending click when the requested position differs
      from the current one; a move of any other pointer is ignored. */
  function PointerMove(s: State, id: int, delta: Vec, clearsWait: bool): (r: Step)
    ensures s.pointerId != id ==> r == Step(s, false)
    ensures Follows(s, r, clearsWait)
    ensures s.pointerId == id ==> (r.state.canClick <==> s.canClick && delta == Zero)
    ensures s.pointerId == id && MinBound(s).x <= s.offset.x <= MaxBound(s).x
            ==> r.state.offset.x == s.offset.x
    ensures s.pointerId == id && MinBound(s).y <= s.offset.y + delta.y <= MaxBound(s).y
            ==> r.state.offset.y == s.offset.y + delta.y
    ensures s.pointerId == id
            ==> r.state.offset == Vec(MathfClamp(s.offset.x, MinBound(s).x, MaxBound(s).x),
                                      MathfClamp(s.offset.y + delta.y, MinBound(s).y, MaxBound(s).y))
    ensures s.pointerId == id ==> (r.fired <==> (s.offset.x > s.high.x || s.offset.y + delta.y < s.low.y) && !s.waiting)
    ensures r.state.pointerId == s.pointerId && r.state.animation == s.animation
    ensures r.state.velocity == s.velocity && r.state.springBack == s.springBack
    ensures r.state.low == s.low && r.state.high == s.high
  {
    if s.pointerId != id then Step(s, false)
    else
      var requested := s.offset.Add(delta);
      var t := s.(canClick := s.canClick && requested == s.offset);
      SetOffset(t, Vec(s.offset.x, requested.y), clearsWait)
  }

  /** `ApplyScrollInertia` with its arithmetic left out: `reset` is the outcome of its
      stop test (speed below one unit per tick, or offset out of bounds), which zeroes the
      velocity first, and `decay` the factor `scrollDecelerationRate ^ dt` it scales by. */
  function ApplyInertia(s: State, reset: bool, decay: real, clearsWait: bool): (r: Step)
    ensures Follows(s, r, clearsWait)
    ensures reset ==> r.state.velocity == Zero
    ensures !reset ==> r.state.velocity == s.velocity.Scale(decay)
    ensures r.state == s.(velocity := r.state.velocity, offset := r.state.offset,
                          waiting := r.state.waiting, waitToLoad := r.state.waitToLoad)
  {
    var stop := if reset then SetVelocity(s, Zero, clearsWait) else Step(s, false);
    Then(stop, SetVelocity(stop.state, stop.state.velocity.Scale(decay), clearsWait))
  }

  /** `SpringBack` with the smoothing left out: `inBound` is the outcome of its bounds
      test, which zeroes the spring-back first, and `springBackY` the y velocity its
      smoothing step produced. */
  function ApplySpringBack(s: State, inBound: bool, springBackY: real, clearsWait: bool): (r: Step)
    ensures Follows(s, r, clearsWait)
    ensures r.state.springBack.y == springBackY
    ensures r.state.springBack.x == (if inBound then 0.0 else s.springBack.x)
    ensures r.state == s.(springBack := r.state.springBack, offset := r.state.offset,
                          waiting := r.state.waiting, waitToLoad := r.state.waitToLoad)
  {
    SetSpringBack(s, Vec(if inBound then 0.0 else s.springBack.x, springBackY), clearsWait)
  }

  /** One tick of `PostPointerUpAnimation`: inertia, then spring-back, then the animation
      pauses exactly when both velocities are zero. A tick of an animation that is not
      running changes nothing. */
  function AnimationTick(s: State, reset: bool, decay: real, inBound: bool, springBackY: real,
                         clearsWait: bool): (r: Step)
    ensures s.animation != Running ==> r == Step(s, false)
    ensures Follows(s, r, clearsWait)
    ensures s.velocity.x == 0.0 ==> r.state.velocity.x == 0.0
    ensures s.animation == Running ==>
              (r.state.animation == Paused <==> r.state.velocity == Zero && r.state.springBack == Zero)
    ensures s.animation == Running ==> r.state.animation != Unscheduled
    ensures s.animation == Running && reset ==> r.state.velocity == Zero
    ensures s.springBack.x == 0.0 ==> r.state.springBack.x == 0.0
    ensures r.state.pointerId == s.pointerId && r.state.canClick == s.canClick
    ensures r.state.low == s.low && r.state.high == s.high
  {
    if s.animation != Running then Step(s, false)
    else
      var inertia := ApplyInertia(s, reset, decay, clearsWait);
      var spring := ApplySpringBack(inertia.state, inBound, springBackY, clearsWait);
      var u := spring.state;
      var pause := u.springBack == Zero && u.velocity == Zero;
      Step(u.(animation := if pause then Paused else Running), inertia.fired || spring.fired)
  }

  /** Bounds of a geometry: the content may move up by the amount it overhangs the
      viewport, and left by the amount it is wider. */
  function LowBoundOf(g: Geometry): Vec
  {
    Vec(0.0, g.viewHeight - g.contentHeight)
  }

  function HighBoundOf(g: Geometry): Vec
  {
    Vec(g.viewWidth - g.contentWidth, 0.0)
  }

  /** `OnGeometryChanged` (bounds part): recomputes the bounds, clamps the y offset to
      the active y range (without the setter, so no reach-end check), and snaps it to 0
      when the content fits in the viewport. The x offset is left as it is. */
  function GeometryChanged(s: State, g: Geometry): (r: State)
    ensures r.low == LowBoundOf(g) && r.high == HighBoundOf(g) && r.geometry == g
    ensures r.offset.x == s.offset.x
    ensures g.contentHeight <= g.viewHeight ==> r.offset.y == 0.0
    ensures g.contentHeight > g.viewHeight && g.viewHeight >= 0.0
            ==> MinBound(r).y <= r.offset.y <= MaxBound(r).y
    ensures g.contentHeight > g.viewHeight
            ==> r.offset.y == MathfClamp(s.offset.y, MinBound(r).y, MaxBound(r).y)
    ensures g.contentHeight > g.viewHeight && MinBound(r).y <= s.offset.y <= MaxBound(r).y
            ==> r.offset.y == s.offset.y
    ensures r == s.(low := r.low, high := r.high, geometry := g, offset := r.offset)
  {
    var t := s.(low := LowBoundOf(g), high := HighBoundOf(g), geometry := g);
    var y := MathfClamp(s.offset.y, if s.waitToLoad then OutLow(t).y else t.low.y, t.high.y);
    t.(offset := Vec(s.offset.x, if g.contentHeight <= g.viewHeight then 0.0 else y))
  }

  /** Recomputing the bounds twice for the same geometry is the same as doing it once. */
  lemma GeometryChangedIdempotent(s: State, g: Geometry)
    requires g.viewHeight >= 0.0
    ensures GeometryChanged(GeometryChanged(s, g), g) == GeometryChanged(s, g)
  {
    var r := GeometryChanged(s, g);
    if g.contentHeight > g.viewHeight {
      assert MinBound(r).y <= r.offset.y <= MaxBound(r).y;
    }
  }

  /** The "out" bounds extend the hard bounds by a tenth of the viewport on each axis. */
  lemma OutBoundsExtend(s: State)
    requires s.geometry.viewWidth >= 0.0 && s.geometry.viewHeight >= 0.0
    ensures OutLow(s).x <= s.low.x && OutLow(s).y <= s.low.y
    ensures s.high.x <= OutHigh(s).x && s.high.y <= OutHigh(s).y
    ensures OutHigh(s).y - s.high.y == s.geometry.viewHeight / 10.0
    ensures s.low.x - OutLow(s).x == s.geometry.viewWidth / 10.0
    ensures s.low.y - OutLow(s).y == s.geometry.viewHeight / 10.0
    ensures OutHigh(s).x - s.high.x == s.geometry.viewWidth / 10.0
  {
  }

  /** A cell's own pointer-down handler arms the click. */
  function CellPointerDown(s: State): (r: State)
    ensures r.canClick
    ensures r == s.(canClick := true)
  {
    s.(canClick := true)
  }

  /** The grid's state before any event. `_pointerId` is an `int` field without an
      initialiser, so it starts at 0, the id of the mouse pointer. */
  function InitialAsWritten(): (s: State)
    ensures s.pointerId == MousePointerId && s.animation == Unscheduled && !s.waiting
  {
    State(Zero, Zero, Zero, Zero, Zero, Geometry(0.0, 0.0, 0.0, 0.0),
          MousePointerId, false, false, false, Unscheduled)
  }

  /** The evidently intended initial state: no pointer captured. */
  function Initial(): (s: State)
    ensures s.pointerId == InvalidPointerId && s.animation == Unscheduled && !s.waiting
    ensures s == InitialAsWritten().(pointerId := InvalidPointerId)
  {
    InitialAsWritten().(pointerId := InvalidPointerId)
  }
}

=== FILE: wrappers.dfy ===
/** An optional value, for results the modelled code may not produce. */
module Wrappers {

  /** `None` stands for an absent value, or for an exception the modelled call would raise. */
  datatype Option<+T> = None | Some(value: T)
}
